=== FILE: README.md ===
# Chronicles of the System — turn engine model

A Dafny model of the turn engine of *Chronicles of the System*, a browser game in which an
observer (the "voice") guides an AI-written hero through a dark-fantasy world. It covers:

- the session state machine of `App.tsx` (menu → searching → location preview → active → hero dead, with
  restart), the message log, the energy economy that gates directives (start 50, a directive costs 35 and
  needs at least 35, observing gives 15 up to 100), and the busy flag;
- the action bar of `components/InputArea.tsx` (the guards in front of a directive and an observation, and
  the dead-hero branch) and how the session feeds it (`disabled` = busy or not active);
- the start form of `components/MainMenu.tsx` (prefill precedence, key trimming and validation);
- the prompt and transport shaping of `services/geminiService.ts`: the 10-entry history window, the
  `ГОЛОС:`/`ГЕРОЙ:` log lines, the silent-versus-directive instruction, the turn prompt, the client-made
  start coordinates, the relay payload and the normalisation of both transports' replies;
- the data model of `types.ts`, with the `MENU` status the app uses although the declared union omits it.
  `ApiConfig` is imported from `types.ts` by App.tsx:2, components/MainMenu.tsx:2 and
  services/geminiService.ts:2, but the file declares no such type; its shape (`apiKey`, `useProxy`) is the one
  built at components/MainMenu.tsx:33-37.

Layout: `wrappers.dfy` (Option, Result), `types.dfy` (module `Types`), `text.dfy` (module `Text`: the
JavaScript `trim`, `join` and number rendering the core relies on), `energy.dfy` (module `Energy`),
`shapes.dfy` (module `Shapes`: the response-schema hints and an abstract reading of replies against them),
`gemini.dfy` (module `Gemini`), `input_area.dfy` (module `InputArea`), `main_menu.dfy` (module
`MainMenu`), `session.dfy` (module `Session`).

How the asynchronous handlers are modelled: each of `initGame`, `startGame` and `processTurn` is split at
its `await`. The first method (`InitGame`, `StartGame`, `ProcessTurn`) runs up to the backend call and
returns what the call is made with; the second (`HeroArrived`, `SeedArrived`, `TurnArrived`) takes the
call's outcome (a hero or turn answer, or a `GenError`) as a parameter. A ghost field `pending` says which
call is outstanding. User events require that nothing is pending; `Session.NoActionWhileBusy` shows that
this is exactly what the app's own gate guarantees, since every user action is closed while a call is out.
`handleSendMessage` and `handleNextTurn` are `ProcessTurn(Some(text))` and `ProcessTurn(None)`.

The network, `JSON.parse` and randomness are parameters. `Gemini.Backend` gives the reply to each request in
each mode. A parse function `string -> Option<T>` stands for `JSON.parse` followed by the unchecked cast.
`CoordDraw` holds the four `Math.random()` draws. Message ids come from a counter (`nextId`) in place of
`crypto.randomUUID()`, and timestamps are a `now` parameter.

Behaviour of the code worth knowing, which the model keeps:
- The code validates no reply fields: it casts the parsed JSON at services/geminiService.ts:83, 111,
  179 and 201. The `Shapes` module gives the schema hints' required-field lists a meaning (`Conforms`,
  `DecodeTurn`, `DecodeHero`), but only as an abstraction. Nothing in the session depends on it.
- The hero fields need only be strings. The schema hint does not ask for them to be non-empty.
- The UI offers restart only when the hero is dead, not from an active game.
- A seed answer that says the hero died is ignored: the game stays active.
- `processTurn` tests `userText` for JavaScript truthiness. So `Some("")` counts as an observation for
  the energy and the log, yet `continueStory` still quotes it as a directive (`Gemini.SilentIffNull`).
  The action bar never sends blank text, so this path is not reachable from the UI.

## Model

| member | source | states |
|---|---|---|
| Types.SenderFromTag | types.ts:1-4 | a tag decodes exactly when it is `SYSTEM` or `HERO`, and to the sender with that tag |
| Types.SenderTagRoundTrip | types.ts:1-4 | the two senders have distinct tags that decode back to them |
| Types.ThemeFromTag | types.ts:13 | a string is a theme exactly when it is one of the six biome tags |
| Types.ThemeTagsExact | types.ts:13 | there are exactly six pairwise distinct tags and each theme's tag decodes to it |
| Text.TrimIsSlice | components/MainMenu.tsx:28-34 | `trim` yields a contiguous slice with only whitespace cut on either side and none left at its ends |
| Text.TrimEmptyIffBlank | components/InputArea.tsx:30 | a text trims to empty exactly when every character is whitespace |
| Text.TrimIdempotent | components/MainMenu.tsx:34 | trimming an already trimmed key changes nothing |
| Text.JoinAppend | services/geminiService.ts:135 | joining lines distributes over concatenation with one separator between the parts |
| Text.JoinLength | services/geminiService.ts:135 | the joined log is all lines' characters plus one separator between neighbours |
| Text.NatToStringRoundTrip | services/geminiService.ts:86 | the decimal rendering of a number reads back as that number |
| Energy.Spend | App.tsx:139-141 | paying for a directive lowers energy by exactly the cost and keeps it in [0, 100] once the gate passed |
| Energy.Gain | App.tsx:142-145 | observing raises energy by 15 or to the 100 ceiling, never lowers it, and keeps it in [0, 100] |
| Energy.RunStaysInRange | App.tsx:26-28 | from any energy in [0, 100], any sequence of directives and observations keeps it in [0, 100] |
| Energy.SessionEnergyInRange | App.tsx:94 | from the session start value 50, energy stays in [0, 100] through any sequence of turns |
| Energy.RunAppend | App.tsx:136-147 | a sequence of turns composes: running `a + b` is running `a` then `b` |
| Energy.ObservationRestoresGate | App.tsx:138-145 | below the cost a directive leaves energy unchanged, and three observations always make a directive affordable again |
| Shapes.DecodeTurn | services/geminiService.ts:166-173 | a turn reply reads successfully exactly when it has every required field with its hinted type, and the fields carry over |
| Shapes.TurnRoundTrip | services/geminiService.ts:166-173 | a turn answer written as JSON conforms to the hint and reads back unchanged |
| Shapes.TurnRejects | services/geminiService.ts:172 | a reply without `diaryEntry`, or with a non-boolean `isDead`, is rejected |
| Shapes.DecodeHero | services/geminiService.ts:66-77 | a hero reply reads successfully exactly when it has the six required fields, `theme` one of the six tags, and all six fields carry over |
| Shapes.HeroRoundTrip | services/geminiService.ts:66-77 | hero fields written as JSON conform to the hint and read back unchanged |
| Gemini.Window | services/geminiService.ts:134 | the window holds exactly the last min(10, n) entries of the history, in their original order |
| Gemini.WindowSlides | services/geminiService.ts:134 | with a full window, a new entry drops the oldest shown one |
| Gemini.WindowGrows | services/geminiService.ts:134 | with room in the window, a new entry is added and nothing is dropped |
| Gemini.RenderLineRoundTrip | services/geminiService.ts:135 | a log line is the speaker's label (`ГОЛОС` for SYSTEM, `ГЕРОЙ` otherwise), `": "` and the content, and determines both |
| Gemini.ConversationLogIgnoresIds | services/geminiService.ts:134-135 | only speakers and contents reach the prompt: histories that agree on them render identically |
| Gemini.ConversationLogAppend | services/geminiService.ts:135 | below the window size, the rendered log grows by a newline and the new line |
| Gemini.SilentIffNull | services/geminiService.ts:137-140 | the silence instruction is used exactly when the input is null; an empty directive is still quoted, and a directive's text is carried |
| Gemini.StoryPromptEmbeds | services/geminiService.ts:142-155 | the turn prompt contains the hero's name, archetype and personality, the rendered log and the chosen instruction |
| Gemini.DrawCoord | services/geminiService.ts:86 | coordinates drawn from four values in [0, 1) have degrees in 0..98 and minutes in 0..59 |
| Gemini.CoordinatesRoundTrip | services/geminiService.ts:86 | the `D°M'N, D°M'E` string determines all four numbers |
| Gemini.BuildProxyPayload | services/geminiService.ts:10-19 | the relay body keeps model and contents, defaults `config` to `{}`, and carries the key exactly when it is non-empty |
| Gemini.ProxyText | services/geminiService.ts:27-33 | a failed relay status is an error carrying that status; otherwise an empty or missing `text` becomes missing and any other text passes unchanged |
| Gemini.RequireText | services/geminiService.ts:81-82 | a missing or empty reply text is an error, any other passes unchanged |
| Gemini.FetchTextNonEmpty | services/geminiService.ts:177-178 | neither transport yields an empty text; once a reply arrived (an ok relay status with a readable body, or an SDK response), a missing or empty text is that transport's no-response error and any other text is the result |
| Gemini.GenerateHero | services/geminiService.ts:45-121 | a hero is produced exactly when the reply text is non-empty and parses; it carries the parsed fields and coordinates that read back as the draw |
| Gemini.ContinueStory | services/geminiService.ts:126-207 | a turn answer is produced exactly when the reply to the turn request is non-empty and parses, and is the parsed value |
| Gemini.StoryRequestShape | services/geminiService.ts:158-175 | a turn request through the relay carries the model name, the turn prompt, temperature 1.1 and the turn hint, and the key only if set |
| InputArea.SubmitGate | components/InputArea.tsx:25-31 | a directive goes out only with a non-blank text, an enabled bar, a living hero and energy ≥ 35; given the rest, affordability alone decides |
| InputArea.DeadOffersOnlyRestart | components/InputArea.tsx:42-57 | a dead hero leaves only restart and blocks both actions; on the live bar the buttons are enabled exactly when their handlers fire |
| InputArea.InputArea.constructor | components/InputArea.tsx:23 | the input starts empty |
| InputArea.InputArea.OnChange | components/InputArea.tsx:104 | typing replaces the text |
| InputArea.InputArea.HandleSubmit | components/InputArea.tsx:28-34 | when the guard passes, the untrimmed text is sent and the input cleared; otherwise nothing is sent and the text stays |
| InputArea.InputArea.HandleNextTurnClick | components/InputArea.tsx:36-40 | an observation fires exactly when the observe guard holds (bar enabled, hero alive), the guard the session lemmas speak of |
| MainMenu.ConfigFromForm | components/MainMenu.tsx:28-37 | a blank key yields nothing; otherwise the key is the input's `trim`, non-empty: the slice left once all leading and trailing whitespace is cut; the proxy flag is passed through |
| MainMenu.MainMenu.constructor | components/MainMenu.tsx:11-13 | the form starts with an empty key, proxy off and no error |
| MainMenu.MainMenu.Prefill | components/MainMenu.tsx:15-22 | a saved configuration wins; only without one is a non-empty environment key used |
| MainMenu.MainMenu.SetApiKey | components/MainMenu.tsx:74 | editing the key changes only the key |
| MainMenu.MainMenu.SetUseProxy | components/MainMenu.tsx:89 | ticking the box changes only the proxy flag |
| MainMenu.MainMenu.HandleSubmit | components/MainMenu.tsx:24-40 | the error is cleared first; a blank key sets the error and starts nothing, any other starts with the form's configuration |
| Session.SentHistoryRendersAsLog | App.tsx:150-153 | the history sent with a turn renders exactly as the log does after the directive was logged |
| Session.Session.constructor | App.tsx:14-22 | the game starts in `MENU` with no log, no hero, energy 50, not busy, no last status |
| Session.Session.AddMessage | App.tsx:77-90 | one entry with a fresh id is appended and nothing else changes |
| Session.Session.InitGame | App.tsx:93-96 | a (re)start searches with an empty log, no hero, energy 50 and no last status, and asks for a hero with the given configuration |
| Session.Session.HeroArrived | App.tsx:99-110 | a generated hero leads to the location preview with that hero; a failure returns to `MENU` |
| Session.Session.HandleStartGame | App.tsx:44-48 | the submitted configuration is stored and a session is started with it |
| Session.Session.HandleRestart | App.tsx:175-177 | with a stored configuration the session starts over with it; without one nothing changes |
| Session.Session.StartGame | App.tsx:114-118 | with hero and configuration the game becomes active and busy and the seed is asked for with an empty history and no directive; otherwise nothing changes |
| Session.Session.SeedArrived | App.tsx:120-129 | exactly one entry is appended (diary entry or error line), `isDead` is ignored, the game stays active and the busy flag is cleared |
| Session.Session.ProcessTurn | App.tsx:133-153 | no turn outside an active game with hero and config, nor for an unaffordable directive; otherwise a directive is logged once and costs 35, an observation gains up to 100, and the old log plus the directive line is sent |
| Session.Session.TurnArrived | App.tsx:155-168 | success appends one hero entry and sets the last status, death ends the game; failure appends one error line, stays active and refunds nothing; busy is cleared |
| Session.NoActionWhileBusy | App.tsx:227 | while a call is outstanding no directive, observation, restart, start form or preview is available |
| Session.DeadBlocksTurns | App.tsx:134 | a dead hero offers only restart and no turn can be taken |
| Session.SubmitImpliesTurnTaken | components/InputArea.tsx:26 | a directive the bar lets through is one the session takes and can pay for, and its text is non-empty |
| Session.TakeTurn | App.tsx:133-168 | one turn of an active game: energy follows `Step`, the hero dies exactly when the turn was taken and its answer says so, and the log only grows, by two entries for an affordable directive, none for a refused one and one for an observation |
| Session.PlayTurns | App.tsx:133-172 | a sequence of directives and observations leaves the energy the economy's `Run` gives over the turns taken; play ends dead exactly when the last turn taken was answered with a death and no earlier turn was; the log only grows, by the entries of the turns taken, so every later input changes neither energy, status nor log; with no death every input is a turn and play can go on |
| Session.DirectiveThenObserve | App.tsx:133-169 | from energy 50, a directive leaves 15 and logs voice then hero, a second directive is refused, an observation leaves 30 and adds a hero entry only |

## Left out

- The network transport (the relay `fetch`, the `GoogleGenAI` SDK) and `api/proxy.js`: foreign I/O. The backend's replies are parameters.
- `JSON.parse` and the unchecked cast to the result type: an opaque parse function that yields only well-typed values. The source passes a malformed reply on as it is, and the model does not represent such replies: a missing field arrives as `undefined` (a missing `diaryEntry` appends a HERO entry whose content is `undefined`, App.tsx:123 and App.tsx:158), and a mistyped field keeps its type (an `isDead` of `"false"` is truthy and ends the game, App.tsx:161); a hero `theme` outside the six tags is kept and the screen falls back to the dungeon style (App.tsx:60-65).
- `localStorage` persistence of the configuration, the 2-second delay in `initGame`, `alert` and `console`: side effects with no bearing on the state.
- UI rendering: themes and background colours, message list, library, location preview and hero status panels, the energy bar's colours.
- `crypto.randomUUID` and `Date.now`: ids are a counter and timestamps a parameter, so log timestamps are not shown to be monotonic.
- React's asynchronous scheduling and stale closures: transitions are sequential, and a continuation runs only after the call it belongs to was made.
- The `INITIALIZING` status: it is declared but never entered.
- Session.Session.ProcessTurn: the fact that the rendered prompt history equals the rendered log is stated separately, in `Session.SentHistoryRendersAsLog`, to keep the method's proof small.

=== FILE: energy.dfy ===
/**
 * The energy economy of App.tsx: directives cost energy and are refused when
 * the player cannot pay; observing restores energy up to a ceiling.
 */
module Energy {

  const ENERGY_COST_MESSAGE: int := 35
  const ENERGY_GAIN_OBSERVE: int := 15
  const MAX_ENERGY: int := 100
  /** The value every session (re)start resets to. */
  const INITIAL_ENERGY: int := 50

  predicate InRange(e: int) {
    0 <= e <= MAX_ENERGY
  }

  /** The affordability gate in front of a directive. */
  predicate CanAfford(e: int) {
    e >= ENERGY_COST_MESSAGE
  }

  /** Paying for a directive; only ever done after the gate passed, so it never goes negative. */
  function Spend(e: int): (r: int)
    requires CanAfford(e)
    ensures r < e && e - r == ENERGY_COST_MESSAGE
    ensures InRange(e) ==> InRange(r)
  {
    e - ENERGY_COST_MESSAGE
  }

  /** Passive observation: energy rises by the fixed gain, clamped at the ceiling. */
  function Gain(e: int): (r: int)
    ensures e <= MAX_ENERGY ==> e <= r
    ensures r <= e + ENERGY_GAIN_OBSERVE && r <= MAX_ENERGY
    ensures r == e + ENERGY_GAIN_OBSERVE || r == MAX_ENERGY
    ensures InRange(e) ==> InRange(r)
  {
    if e + ENERGY_GAIN_OBSERVE < MAX_ENERGY then e + ENERGY_GAIN_OBSERVE else MAX_ENERGY
  }

  /** The two kinds of turn a player can take. */
  datatype Action = Directive | Observe

  /** Energy after one attempted turn; a directive the player cannot pay for changes nothing. */
  function Step(e: int, a: Action): int {
    match a
    case Directive => if CanAfford(e) then Spend(e) else e
    case Observe => Gain(e)
  }

  /** Energy after a sequence of attempted turns. */
  function Run(e: int, acts: seq<Action>): int
    decreases |acts|
  {
    if acts == [] then e else Run(Step(e, acts[0]), acts[1..])
  }

  /** Starting anywhere in [0, 100], energy stays in [0, 100] through any sequence of turns. */
  lemma {:induction false} RunStaysInRange(e: int, acts: seq<Action>)
    requires InRange(e)
    ensures InRange(Run(e, acts))
    decreases |acts|
  {
    if acts != [] {
      RunStaysInRange(Step(e, acts[0]), acts[1..]);
    }
  }

  /** In particular from the start value of every session. */
  lemma SessionEnergyInRange(acts: seq<Action>)
    ensures InRange(Run(INITIAL_ENERGY, acts))
  {
    RunStaysInRange(INITIAL_ENERGY, acts);
  }

  /** Turns compose: running `a + b` is running `a`, then `b`. */
  lemma {:induction false} RunAppend(e: int, a: seq<Action>, b: seq<Action>)
    ensures Run(e, a + b) == Run(Run(e, a), b)
    decreases |a|
  {
    if a != [] {
      assert (a + b)[1..] == a[1..] + b;
      RunAppend(Step(e, a[0]), a[1..], b);
    } else {
      assert a + b == b;
    }
  }

  /**
   * The economy forces alternation: below the cost, a directive is refused and
   * leaves energy as it was, and enough observations always restore the gate
   * (three from any in-range value).
   */
  lemma ObservationRestoresGate(e: int)
    requires InRange(e)
    ensures !CanAfford(e) ==> Step(e, Directive) == e
    ensures CanAfford(Run(e, [Observe, Observe, Observe]))
  {
    var three := [Observe, Observe, Observe];
    assert three[1..] == [Observe, Observe] && three[1..][1..] == [Observe];
    assert Run(e, three) == Run(Gain(e), [Observe, Observe]);
    assert Run(Gain(e), [Observe, Observe]) == Run(Gain(Gain(e)), [Observe]);
    assert Run(Gain(Gain(e)), [Observe]) == Run(Gain(Gain(Gain(e))), []);
  }
}

=== FILE: gemini.dfy ===
/**
 * The generation service (services/geminiService.ts): the prompts it builds,
 * the requests it sends through either transport, and how it turns a reply
 * into a hero profile or a turn answer. The network call and `JSON.parse` are
 * parameters: a `Backend` gives the reply to each request, a parse function
 * gives the (cast) value for each text.
 */
module Gemini {
  import opened Wrappers
  import opened Types
  import opened Text
  import opened Shapes

  const MODEL_NAME: string := "gemini-2.5-flash"

  /** How many of the latest log entries a turn prompt shows. */
  const HISTORY_WINDOW: nat := 10

  // ---------------------------------------------------------------- turn prompt

  /** `history.slice(-10)`: the latest entries, oldest first. */
  function Window(history: seq<Message>): (w: seq<Message>)
    ensures |w| == if |history| < HISTORY_WINDOW then |history| else HISTORY_WINDOW
    ensures forall i :: 0 <= i < |w| ==> w[i] == history[|history| - |w| + i]
  {
    if |history| <= HISTORY_WINDOW then history else history[|history| - HISTORY_WINDOW..]
  }

  /** Once the window is full, one more entry pushes out the oldest shown. */
  lemma WindowSlides(history: seq<Message>, m: Message)
    requires |history| >= HISTORY_WINDOW
    ensures Window(history + [m]) == Window(history)[1..] + [m]
  {
    var h := history + [m];
    assert h[|h| - HISTORY_WINDOW..] == history[|history| - HISTORY_WINDOW..][1..] + [m];
  }

  /** With room left in the window, nothing is dropped. */
  lemma WindowGrows(history: seq<Message>, m: Message)
    requires |history| < HISTORY_WINDOW
    ensures Window(history + [m]) == Window(history) + [m]
  {
  }

  const SYSTEM_LABEL: string := "ГОЛОС"
  const HERO_LABEL: string := "ГЕРОЙ"

  function SpeakerLabel(s: Sender): string {
    if s == SYSTEM then SYSTEM_LABEL else HERO_LABEL
  }

  /** One log line: the speaker's label, a colon and a space, then the content. */
  function RenderLine(m: Message): string {
    SpeakerLabel(m.sender) + ": " + m.content
  }

  /** Reads a rendered line back into speaker and content. */
  function ParseLine(line: string): Option<(Sender, string)> {
    if |line| >= 7 && line[..7] == SYSTEM_LABEL + ": " then Some((SYSTEM, line[7..]))
    else if |line| >= 7 && line[..7] == HERO_LABEL + ": " then Some((HERO, line[7..]))
    else None
  }

  /** A rendered line determines its speaker and its content. */
  lemma RenderLineRoundTrip(m: Message)
    ensures ParseLine(RenderLine(m)) == Some((m.sender, m.content))
  {
    var line := RenderLine(m);
    assert line[..7] == SpeakerLabel(m.sender) + ": ";
    assert line[7..] == m.content;
    assert (SYSTEM_LABEL + ": ") != (HERO_LABEL + ": ") by {
      assert (SYSTEM_LABEL + ": ")[4] != (HERO_LABEL + ": ")[4];
    }
  }

  function RenderLines(ms: seq<Message>): (r: seq<string>)
    ensures |r| == |ms| && forall i :: 0 <= i < |ms| ==> r[i] == RenderLine(ms[i])
  {
    seq(|ms|, i requires 0 <= i < |ms| => RenderLine(ms[i]))
  }

  /** The dialogue context of a turn prompt: the window's lines joined by newlines. */
  function ConversationLog(history: seq<Message>): string {
    Join(RenderLines(Window(history)), "\n")
  }

  predicate SameLines(a: seq<Message>, b: seq<Message>) {
    |a| == |b| && forall i :: 0 <= i < |a| ==> a[i].sender == b[i].sender && a[i].content == b[i].content
  }

  /** Only speakers and contents reach the prompt: ids and timestamps do not. */
  lemma ConversationLogIgnoresIds(a: seq<Message>, b: seq<Message>)
    requires SameLines(a, b)
    ensures ConversationLog(a) == ConversationLog(b)
  {
    assert RenderLines(Window(a)) == RenderLines(Window(b));
  }

  /** The log grows line by line while the window has room. */
  lemma ConversationLogAppend(history: seq<Message>, m: Message)
    requires 0 < |history| < HISTORY_WINDOW
    ensures ConversationLog(history + [m]) == ConversationLog(history) + "\n" + RenderLine(m)
  {
    WindowGrows(history, m);
    assert RenderLines(history + [m]) == RenderLines(history) + [RenderLine(m)];
    JoinAppend(RenderLines(history), [RenderLine(m)], "\n");
  }

  const SILENT_ACTION: string := "ГОЛОС МОЛЧИТ. Герой предоставлен сам себе."

  /** The instruction for this turn: the directive quoted, or the silence instruction for `null`. */
  function SystemAction(systemInput: Option<string>): string {
    if systemInput.None? then SILENT_ACTION else SYSTEM_LABEL + ": \"" + systemInput.value + "\""
  }

  /**
   * The silence branch is taken exactly when there is no directive at all; an
   * empty directive is still quoted as a directive, and a directive's text is
   * carried into the instruction.
   */
  lemma SilentIffNull(systemInput: Option<string>)
    ensures SystemAction(systemInput) == SILENT_ACTION <==> systemInput.None?
    ensures systemInput.Some? ==> Contains(SystemAction(systemInput), systemInput.value)
  {
    if systemInput.Some? {
      var a := SystemAction(systemInput);
      assert a[5] == ':' && SILENT_ACTION[5] == ' ';
      ContainsMiddle(SYSTEM_LABEL + ": \"", systemInput.value, "\"");
    }
  }

  const STORY_PROMPT_TAIL: string :=
    "\n\n    Верни ответ строго в JSON:\n    {\n      \"diaryEntry\": \"Текст (1-3 абзаца)\",\n"
    + "      \"isDead\": true/false,\n      \"statusDescription\": \"Статус\"\n    }\n  "

  /** The pieces of the turn prompt's template, in order. */
  function StoryPromptParts(hero: HeroProfile, history: seq<Message>, systemInput: Option<string>): seq<string> {
    [ "\n    Ты играешь роль: ", hero.name, ". Архетип: ", hero.archetype,
      ". Характер: ", hero.personality, ".\n    КОНТЕКСТ ДИАЛОГА:\n    ",
      ConversationLog(history), "\n    ТЕКУЩАЯ ИНСТРУКЦИЯ:\n    ",
      SystemAction(systemInput), STORY_PROMPT_TAIL ]
  }

  /** The turn prompt: hero identity, dialogue context, then this turn's instruction. */
  function StoryPrompt(hero: HeroProfile, history: seq<Message>, systemInput: Option<string>): string {
    Concat(StoryPromptParts(hero, history, systemInput))
  }

  /** The prompt embeds the hero's name, archetype and personality, the log and the action. */
  lemma StoryPromptEmbeds(hero: HeroProfile, history: seq<Message>, systemInput: Option<string>)
    ensures Contains(StoryPrompt(hero, history, systemInput), hero.name)
    ensures Contains(StoryPrompt(hero, history, systemInput), hero.archetype)
    ensures Contains(StoryPrompt(hero, history, systemInput), hero.personality)
    ensures Contains(StoryPrompt(hero, history, systemInput), ConversationLog(history))
    ensures Contains(StoryPrompt(hero, history, systemInput), SystemAction(systemInput))
  {
    var parts := StoryPromptParts(hero, history, systemInput);
    ConcatContains(parts, 1);
    ConcatContains(parts, 3);
    ConcatContains(parts, 5);
    ConcatContains(parts, 7);
    ConcatContains(parts, 9);
  }

  // ---------------------------------------------------------------- coordinates

  /** Four `Math.random()` draws, each in [0, 1). */
  datatype CoordDraw = CoordDraw(r1: real, r2: real, r3: real, r4: real)

  predicate ValidDraw(d: CoordDraw) {
    && 0.0 <= d.r1 < 1.0 && 0.0 <= d.r2 < 1.0
    && 0.0 <= d.r3 < 1.0 && 0.0 <= d.r4 < 1.0
  }

  /** Degrees and minutes of a north latitude and an east longitude. */
  datatype Coord = Coord(latDeg: nat, latMin: nat, lonDeg: nat, lonMin: nat)

  /** `Math.floor(Math.random() * 99)`: a value in 0 .. 98. */
  function Degrees(r: real): (k: nat)
    requires 0.0 <= r < 1.0
    ensures k <= 98
  {
    (r * 99.0).Floor
  }

  /** `Math.floor(Math.random() * 60)`: a value in 0 .. 59. */
  function Minutes(r: real): (k: nat)
    requires 0.0 <= r < 1.0
    ensures k <= 59
  {
    (r * 60.0).Floor
  }

  /** Degrees come from a scale of 99, minutes from a scale of 60. */
  function DrawCoord(d: CoordDraw): (c: Coord)
    requires ValidDraw(d)
    ensures c.latDeg <= 98 && c.lonDeg <= 98 && c.latMin <= 59 && c.lonMin <= 59
  {
    Coord(Degrees(d.r1), Minutes(d.r2), Degrees(d.r3), Minutes(d.r4))
  }

  /** The `D°M'N, D°M'E` string shown as the hero's start position. */
  function FormatCoordinates(c: Coord): string {
    NatToString(c.latDeg) + "°" + NatToString(c.latMin) + "'N, "
    + NatToString(c.lonDeg) + "°" + NatToString(c.lonMin) + "'E"
  }

  /** Reads a number followed by a literal, returning the number and what follows the literal. */
  function ReadNumberThen(s: string, lit: string): Option<(nat, string)> {
    var ds := LeadingDigits(s);
    var rest := s[|ds|..];
    if ds != [] && |rest| >= |lit| && rest[..|lit|] == lit
    then Some((ParseDigits(ds), rest[|lit|..]))
    else None
  }

  lemma ReadNumberThenOf(n: nat, lit: string, rest: string)
    requires lit != [] && !IsDigit(lit[0])
    ensures ReadNumberThen(NatToString(n) + (lit + rest), lit) == Some((n, rest))
  {
    var ds := NatToString(n);
    var s := ds + (lit + rest);
    LeadingDigitsOf(ds, lit + rest);
    NatToStringRoundTrip(n);
    assert s[|ds|..] == lit + rest;
  }

  /** Reads the four numbers back out of a coordinate string. */
  function ParseCoordinates(s: string): Option<Coord> {
    match ReadNumberThen(s, "°")
    case None => None
    case Some((a, s1)) =>
      match ReadNumberThen(s1, "'N, ")
      case None => None
      case Some((b, s2)) =>
        match ReadNumberThen(s2, "°")
        case None => None
        case Some((c, s3)) =>
          match ReadNumberThen(s3, "'E")
          case None => None
          case Some((d, s4)) => if s4 == [] then Some(Coord(a, b, c, d)) else None
  }

  /** The coordinate string, grouped from the right as the parser reads it. */
  lemma FormatCoordinatesRight(c: Coord)
    ensures FormatCoordinates(c)
         == NatToString(c.latDeg) + ("°" + (NatToString(c.latMin) + ("'N, "
            + (NatToString(c.lonDeg) + ("°" + (NatToString(c.lonMin) + ("'E" + "")))))))
  {
  }

  /** The coordinate format is unambiguous: the string determines all four numbers. */
  lemma CoordinatesRoundTrip(c: Coord)
    ensures ParseCoordinates(FormatCoordinates(c)) == Some(c)
  {
    var a, b, d, e := NatToString(c.latDeg), NatToString(c.latMin), NatToString(c.lonDeg), NatToString(c.lonMin);
    var s3 := e + ("'E" + "");
    var s2 := d + ("°" + s3);
    var s1 := b + ("'N, " + s2);
    FormatCoordinatesRight(c);
    ReadNumberThenOf(c.latDeg, "°", s1);
    ReadNumberThenOf(c.latMin, "'N, ", s2);
    ReadNumberThenOf(c.lonDeg, "°", s3);
    ReadNumberThenOf(c.lonMin, "'E", "");
  }

  // ---------------------------------------------------------------- requests

  /** The generation settings sent with a request (`{}` is all absent). */
  datatype GenConfig = GenConfig(temperature: Option<real>, responseMimeType: Option<string>, responseSchema: Option<Schema>)

  const EMPTY_CONFIG: GenConfig := GenConfig(None, None, None)

  function HeroConfig(): GenConfig {
    GenConfig(None, Some("application/json"), Some(HeroSchema()))
  }

  /** Turns run at an elevated temperature. */
  function TurnConfig(): GenConfig {
    GenConfig(Some(1.1), Some("application/json"), Some(TurnSchema()))
  }

  /** The options a generation call is made with; `config` and `schema` may be absent. */
  datatype GenerateOptions = GenerateOptions(model: string, contents: string, config: Option<GenConfig>, schema: Option<Schema>)

  const HERO_PROMPT: string :=
    "\n    Сгенерируй профиль человека (героя), который попал в мрачный, опасный, реалистичный средневековый мир.\n"
    + "    Верни JSON:\n    - name: Имя\n    - archetype: Профессия/Роль в прошлом мире\n"
    + "    - personality: Характер\n    - origin: Как попал сюда\n"
    + "    - theme: 'dungeon' | 'forest' | 'desert' | 'winter' | 'swamp' | 'city'\n"
    + "    - locationDescription: Описание места, где очнулся герой\n  "

  function HeroOptions(): GenerateOptions {
    GenerateOptions(MODEL_NAME, HERO_PROMPT, Some(HeroConfig()), None)
  }

  function StoryOptions(hero: HeroProfile, history: seq<Message>, systemInput: Option<string>): GenerateOptions {
    GenerateOptions(MODEL_NAME, StoryPrompt(hero, history, systemInput), Some(TurnConfig()), None)
  }

  /** The JSON body posted to the relay. */
  datatype ProxyPayload = ProxyPayload(model: string, contents: string, config: GenConfig, schema: Option<Schema>, apiKey: Option<string>)

  /**
   * The relay body: model and contents as given, `config` defaulting to `{}`,
   * and the client key attached only when it is non-empty.
   */
  function BuildProxyPayload(cfg: ApiConfig, options: GenerateOptions): (p: ProxyPayload)
    ensures p.model == options.model && p.contents == options.contents && p.schema == options.schema
    ensures options.config.Some? ==> p.config == options.config.value
    ensures options.config.None? ==> p.config == EMPTY_CONFIG
    ensures p.apiKey.Some? <==> cfg.apiKey != ""
    ensures p.apiKey.Some? ==> p.apiKey.value == cfg.apiKey
  {
    var payload := ProxyPayload(options.model, options.contents, options.config.GetOr(EMPTY_CONFIG), options.schema, None);
    if cfg.apiKey != "" then payload.(apiKey := Some(cfg.apiKey)) else payload
  }

  // ---------------------------------------------------------------- replies

  datatype Transport = Direct | Proxy

  /** What the relay's reply body parsed to: not JSON at all, or an object whose `text` may be missing. */
  datatype ProxyBody = MalformedBody | ProxyBody(text: Option<string>)

  /** The outcome of the `fetch` to the relay. */
  datatype HttpReply = NetworkFailure | HttpResponse(ok: bool, status: int, errText: string, body: ProxyBody)

  /** The outcome of the SDK's `generateContent`: a thrown error, or a response whose `text` may be missing. */
  datatype SdkReply = SdkFailure | SdkResponse(text: Option<string>)

  /** The backend as seen from the service: one reply per request, in each mode. */
  datatype Backend = Backend(direct: GenerateOptions -> SdkReply, proxy: ProxyPayload -> HttpReply)

  /** Everything that makes a generation call throw. */
  datatype GenError =
    | NetworkError
    | ProxyHttpError(status: int, errText: string)
    | MalformedProxyBody
    | NoResponse(transport: Transport)
    | ResponseNotJson

  /** `callProxyGenerateContent` after the fetch: a failed status is an error carrying it, and an empty `text` counts as missing. */
  function ProxyText(reply: HttpReply): (r: Result<Option<string>, GenError>)
    ensures reply.HttpResponse? && !reply.ok ==> r == Failure(ProxyHttpError(reply.status, reply.errText))
    ensures r.Success? <==> reply.HttpResponse? && reply.ok && reply.body.ProxyBody?
    ensures r.Success? ==> (r.value.Some? <==> reply.body.text.Some? && reply.body.text.value != "")
    ensures r.Success? && r.value.Some? ==> r.value.value == reply.body.text.value
  {
    match reply
    case NetworkFailure => Failure(NetworkError)
    case HttpResponse(ok, status, errText, body) =>
      if !ok then Failure(ProxyHttpError(status, errText))
      else match body
        case MalformedBody => Failure(MalformedProxyBody)
        case ProxyBody(text) => Success(if text.Some? && text.value != "" then text else None)
  }

  /** The `if (!text) throw` guard: a missing or empty text is an error, anything else passes through. */
  function RequireText(transport: Transport, text: Option<string>): (r: Result<string, GenError>)
    ensures r.Success? <==> text.Some? && text.value != ""
    ensures r.Success? ==> r.value == text.value
    ensures r.Failure? ==> r.error == NoResponse(transport)
  {
    if text.Some? && text.value != "" then Success(text.value) else Failure(NoResponse(transport))
  }

  /** The reply text for a call, through the transport the configuration selects. */
  function FetchText(cfg: ApiConfig, options: GenerateOptions, backend: Backend): Result<string, GenError> {
    if cfg.useProxy then
      match ProxyText(backend.proxy(BuildProxyPayload(cfg, options)))
      case Failure(e) => Failure(e)
      case Success(text) => RequireText(Proxy, text)
    else
      match backend.direct(options)
      case SdkFailure => Failure(NetworkError)
      case SdkResponse(text) => RequireText(Direct, text)
  }

  /**
   * Neither transport ever yields an empty text. Once a reply arrived (an ok
   * relay status with a readable body, or an SDK response), a missing or empty
   * text is the no-response error of that transport and any other text is the result.
   */
  lemma FetchTextNonEmpty(cfg: ApiConfig, options: GenerateOptions, backend: Backend,
                          status: int, errText: string, t: Option<string>)
    ensures FetchText(cfg, options, backend).Success? ==> FetchText(cfg, options, backend).value != ""
    ensures cfg.useProxy && backend.proxy(BuildProxyPayload(cfg, options)) == HttpResponse(true, status, errText, ProxyBody(t))
            ==> FetchText(cfg, options, backend)
                == if t.None? || t.value == "" then Failure(NoResponse(Proxy)) else Success(t.value)
    ensures !cfg.useProxy && backend.direct(options) == SdkResponse(t)
            ==> FetchText(cfg, options, backend)
                == if t.None? || t.value == "" then Failure(NoResponse(Direct)) else Success(t.value)
  {
  }

  /** The profile returned: the parsed fields plus client-made coordinates. */
  function WithCoordinates(d: HeroData, coords: string): HeroProfile {
    HeroProfile(d.name, d.archetype, d.personality, d.origin, d.theme, d.locationDescription, coords)
  }

  /**
   * `generateHero`: one call with the hero prompt and hint, the text parsed by
   * `parse` (JSON.parse and the cast), coordinates drawn on the client.
   */
  function GenerateHero(cfg: ApiConfig, backend: Backend, parse: string -> Option<HeroData>, draw: CoordDraw): (r: Result<HeroProfile, GenError>)
    requires ValidDraw(draw)
    ensures r.Success? <==> FetchText(cfg, HeroOptions(), backend).Success?
                            && parse(FetchText(cfg, HeroOptions(), backend).value).Some?
    ensures r.Success? ==> && var d := parse(FetchText(cfg, HeroOptions(), backend).value).value;
                           && r.value.name == d.name && r.value.archetype == d.archetype
                           && r.value.personality == d.personality && r.value.origin == d.origin
                           && r.value.theme == d.theme && r.value.locationDescription == d.locationDescription
    ensures r.Success? ==> ParseCoordinates(r.value.startCoordinates) == Some(DrawCoord(draw))
  {
    match FetchText(cfg, HeroOptions(), backend)
    case Failure(e) => Failure(e)
    case Success(text) =>
      match parse(text)
      case None => Failure(ResponseNotJson)
      case Some(d) =>
        CoordinatesRoundTrip(DrawCoord(draw));
        Success(WithCoordinates(d, FormatCoordinates(DrawCoord(draw))))
  }

  /** `continueStory`: one call with the turn prompt and hint, the text parsed by `parse`. */
  function ContinueStory(hero: HeroProfile, history: seq<Message>, systemInput: Option<string>, cfg: ApiConfig,
                         backend: Backend, parse: string -> Option<AIResponse>): (r: Result<AIResponse, GenError>)
    ensures r.Success? <==> FetchText(cfg, StoryOptions(hero, history, systemInput), backend).Success?
                            && parse(FetchText(cfg, StoryOptions(hero, history, systemInput), backend).value).Some?
    ensures r.Success? ==> r == Success(parse(FetchText(cfg, StoryOptions(hero, history, systemInput), backend).value).value)
  {
    match FetchText(cfg, StoryOptions(hero, history, systemInput), backend)
    case Failure(e) => Failure(e)
    case Success(text) =>
      match parse(text)
      case None => Failure(ResponseNotJson)
      case Some(a) => Success(a)
  }

  /** What a turn request carries through the relay: the turn prompt, the turn hint at temperature 1.1, the key only if set. */
  lemma StoryRequestShape(hero: HeroProfile, history: seq<Message>, systemInput: Option<string>, cfg: ApiConfig)
    ensures var p := BuildProxyPayload(cfg, StoryOptions(hero, history, systemInput));
            && p.model == MODEL_NAME
            && p.contents == StoryPrompt(hero, history, systemInput)
            && p.config.temperature == Some(1.1)
            && p.config.responseSchema == Some(TurnSchema())
            && (p.apiKey.Some? <==> cfg.apiKey != "")
  {
  }
}

=== FILE: input_area.dfy ===
/**
 * The action bar (components/InputArea.tsx): the gate in front of sending a
 * directive and of observing, the typed text it holds, and what it offers
 * once the hero is dead.
 */
module InputArea {
  import opened Wrappers
  import opened Text

  /** The component's own copy of the directive cost. */
  const MESSAGE_COST: int := 35

  /** The props the session renders the bar with. */
  datatype Props = Props(disabled: bool, isDead: bool, systemEnergy: int)

  predicate CanSendMessage(systemEnergy: int) {
    systemEnergy >= MESSAGE_COST
  }

  /** The guard of `handleSubmit`. */
  predicate SubmitAllowed(p: Props, text: string) {
    Trim(text) != "" && !p.disabled && !p.isDead && CanSendMessage(p.systemEnergy)
  }

  /** The guard of `handleNextTurnClick`. */
  predicate ObserveAllowed(p: Props) {
    !p.disabled && !p.isDead
  }

  /**
   * A directive goes out only with some non-whitespace character in it, an
   * enabled bar, a living hero and at least the cost in energy; and given the
   * rest, affordability alone decides.
   */
  lemma SubmitGate(p: Props, text: string)
    ensures SubmitAllowed(p, text) ==> exists i :: 0 <= i < |text| && !IsJsWhitespace(text[i])
    ensures SubmitAllowed(p, text) ==> p.systemEnergy >= MESSAGE_COST && !p.disabled && !p.isDead
    ensures !AllWhitespace(text) && !p.disabled && !p.isDead ==> (SubmitAllowed(p, text) <==> p.systemEnergy >= MESSAGE_COST)
  {
    TrimEmptyIffBlank(text);
  }

  /** The controls on screen. */
  datatype Control = LibraryButton | ObserveButton | TextInput | SendButton | RestartButton

  function OfferedControls(isDead: bool): set<Control> {
    if isDead then {RestartButton} else {LibraryButton, ObserveButton, TextInput, SendButton}
  }

  /** The `disabled` attribute of the send button. */
  predicate SendButtonDisabled(p: Props, text: string) {
    p.disabled || Trim(text) == "" || !CanSendMessage(p.systemEnergy)
  }

  /** The `disabled` attribute of the observe button. */
  predicate ObserveButtonDisabled(p: Props) {
    p.disabled
  }

  /**
   * A dead hero leaves only the restart action, and neither a directive nor an
   * observation can fire; on the live bar, the buttons are enabled exactly
   * when their handlers would fire.
   */
  lemma DeadOffersOnlyRestart(p: Props, text: string)
    ensures p.isDead ==> OfferedControls(p.isDead) == {RestartButton}
    ensures p.isDead ==> !SubmitAllowed(p, text) && !ObserveAllowed(p)
    ensures !p.isDead ==> RestartButton !in OfferedControls(p.isDead)
    ensures !p.isDead ==> (!SendButtonDisabled(p, text) <==> SubmitAllowed(p, text))
    ensures !p.isDead ==> (!ObserveButtonDisabled(p) <==> ObserveAllowed(p))
  {
  }

  class InputArea {
    /** The text typed so far. */
    var text: string

    constructor ()
      ensures text == ""
    {
      text := "";
    }

    /** `onChange` of the input. */
    method OnChange(value: string)
      modifies this
      ensures text == value
    {
      text := value;
    }

    /**
     * `handleSubmit`: when the guard passes, the untrimmed text goes to
     * `onSend` and the input is cleared; otherwise nothing is sent and the
     * text stays.
     */
    method HandleSubmit(p: Props) returns (sent: Option<string>)
      modifies this
      ensures SubmitAllowed(p, old(text)) ==> sent == Some(old(text)) && text == ""
      ensures !SubmitAllowed(p, old(text)) ==> sent == None && text == old(text)
    {
      if SubmitAllowed(p, text) {
        sent := Some(text);
        text := "";
      } else {
        sent := None;
      }
    }

    /** `handleNextTurnClick`: `onNextTurn` fires only on an enabled bar with a living hero. */
    method HandleNextTurnClick(p: Props) returns (fired: bool)
      ensures fired <==> ObserveAllowed(p)
    {
      fired := ObserveAllowed(p);
    }
  }
}

=== FILE: main_menu.dfy ===
/**
 * The start form (components/MainMenu.tsx): it is prefilled from a saved
 * configuration or an environment key, and on submit it either reports a
 * missing key or hands a configuration to the session.
 */
module MainMenu {
  import opened Wrappers
  import opened Types
  import opened Text

  const KEY_REQUIRED: string := "Требуется API ключ"

  /**
   * The configuration a submit yields: none for a blank key, otherwise the
   * trimmed key with the proxy flag as ticked.
   */
  function ConfigFromForm(apiKey: string, useProxy: bool): (r: Option<ApiConfig>)
    ensures r.None? <==> AllWhitespace(apiKey)
    ensures r.Some? ==> r.value.useProxy == useProxy && r.value.apiKey != ""
    ensures r.Some? ==> r.value.apiKey == Trim(apiKey) && Trim(r.value.apiKey) == r.value.apiKey
    ensures r.Some? ==> exists i, j :: && 0 <= i <= j <= |apiKey| && r.value.apiKey == apiKey[i..j]
                                       && AllWhitespace(apiKey[..i]) && AllWhitespace(apiKey[j..])
  {
    TrimEmptyIffBlank(apiKey);
    TrimIdempotent(apiKey);
    TrimSliceOf(apiKey);
    if Trim(apiKey) == "" then None else Some(ApiConfig(Trim(apiKey), useProxy))
  }

  class MainMenu {
    var apiKey: string
    var useProxy: bool
    var error: string

    constructor ()
      ensures apiKey == "" && !useProxy && error == ""
    {
      apiKey, useProxy, error := "", false, "";
    }

    /**
     * The prefill effect: a saved configuration wins; only without one is a
     * non-empty environment key used, and then the proxy flag is left alone.
     */
    method Prefill(saved: Option<ApiConfig>, envKey: Option<string>)
      modifies this
      ensures saved.Some? ==> apiKey == saved.value.apiKey && useProxy == saved.value.useProxy
      ensures saved.None? && envKey.Some? && envKey.value != "" ==> apiKey == envKey.value && useProxy == old(useProxy)
      ensures saved.None? && !(envKey.Some? && envKey.value != "") ==> apiKey == old(apiKey) && useProxy == old(useProxy)
      ensures error == old(error)
    {
      if saved.Some? {
        apiKey := saved.value.apiKey;
        useProxy := saved.value.useProxy;
      } else if envKey.Some? && envKey.value != "" {
        apiKey := envKey.value;
      }
    }

    method SetApiKey(value: string)
      modifies this
      ensures apiKey == value && useProxy == old(useProxy) && error == old(error)
    {
      apiKey := value;
    }

    method SetUseProxy(value: bool)
      modifies this
      ensures useProxy == value && apiKey == old(apiKey) && error == old(error)
    {
      useProxy := value;
    }

    /**
     * `handleSubmit`: the error is cleared first; a blank key sets the error
     * and starts nothing, any other key starts with the form's configuration.
     */
    method HandleSubmit() returns (started: Option<ApiConfig>)
      modifies this
      ensures apiKey == old(apiKey) && useProxy == old(useProxy)
      ensures started == ConfigFromForm(apiKey, useProxy)
      ensures started.None? ==> error == KEY_REQUIRED
      ensures started.Some? ==> error == ""
    {
      error := "";
      if Trim(apiKey) == "" {
        error := KEY_REQUIRED;
        started := None;
        return;
      }
      started := Some(ApiConfig(Trim(apiKey), useProxy));
    }
  }
}

=== FILE: session.dfy ===
/**
 * The game session of App.tsx: lifecycle status, the message log, the current
 * hero, the energy, the busy flag and the last hero status.
 *
 * Each asynchronous handler is split at its `await`: the first method runs up
 * to the call and returns what the call is made with; the second runs when the
 * call has finished and takes its outcome as a parameter. The ghost field
 * `pending` records which call is outstanding.
 */
module Session {
  import opened Wrappers
  import opened Types
  import opened Energy
  import Gemini
  import InputArea

  /** The outstanding backend call, if any. */
  datatype Pending = Nothing | AwaitHero | AwaitSeed | AwaitTurn

  /** The arguments of a `continueStory` call. */
  datatype StoryRequest = StoryRequest(hero: HeroProfile, history: seq<Message>, systemInput: Option<string>, config: ApiConfig)

  const SEED_ERROR: string := "Ошибка соединения с носителем..."
  const TURN_ERROR: string := "Помехи в ментальном канале (API Error)..."

  /** JavaScript truthiness of `userText`: `null` and the empty string both mean "observe". */
  predicate IsDirective(userText: Option<string>) {
    userText.Some? && userText.value != ""
  }

  function ActionOf(userText: Option<string>): Action {
    if IsDirective(userText) then Directive else Observe
  }

  /** The line `processTurn` adds to the history it sends (id 'temp'), for a directive. */
  function DirectiveLine(userText: Option<string>, now: int): seq<Message> {
    if IsDirective(userText) then [Message(Temp, SYSTEM, userText.value, now)] else []
  }

  /** The entry `processTurn` appends to the log for a directive, under a fresh id. */
  function LoggedLine(userText: Option<string>, now: int, id: nat): seq<Message> {
    if IsDirective(userText) then [Message(Uuid(id), SYSTEM, userText.value, now)] else []
  }

  /**
   * The history sent with a turn renders exactly as the log does after the
   * directive was added: the two differ only in the directive's id.
   */
  lemma SentHistoryRendersAsLog(log: seq<Message>, userText: Option<string>, now: int, id: nat)
    ensures Gemini.ConversationLog(log + DirectiveLine(userText, now))
         == Gemini.ConversationLog(log + LoggedLine(userText, now, id))
  {
    var a, b := log + DirectiveLine(userText, now), log + LoggedLine(userText, now, id);
    assert Gemini.SameLines(a, b);
    Gemini.ConversationLogIgnoresIds(a, b);
  }

  /** Log ids are fresh counter values, strictly increasing along the log. */
  predicate IdsFresh(messages: seq<Message>, nextId: nat) {
    && (forall i :: 0 <= i < |messages| ==> messages[i].id.Uuid? && messages[i].id.n < nextId)
    && (forall i, j :: 0 <= i < j < |messages| ==> messages[i].id.Uuid? && messages[j].id.Uuid? ==> messages[i].id.n < messages[j].id.n)
  }

  class Session {
    var apiConfig: Option<ApiConfig>
    var status: Status
    var messages: seq<Message>
    var currentHero: Option<HeroProfile>
    var systemEnergy: int
    var loading: bool
    var lastHeroStatus: string
    /** Stands for `crypto.randomUUID()`: the next id to hand out. */
    var nextId: nat
    ghost var pending: Pending

    ghost predicate Valid()
      reads this
    {
      && InRange(systemEnergy)
      && IdsFresh(messages, nextId)
      && (status == LOCATION_PREVIEW || status == ACTIVE || status == HERO_DEAD ==> currentHero.Some?)
      && (status != MENU ==> apiConfig.Some?)
      && (pending == Nothing ==> !loading)
      && (pending == AwaitHero ==> status == SEARCHING && !loading)
      && (pending == AwaitSeed || pending == AwaitTurn ==> status == ACTIVE && loading)
      && (pending == AwaitSeed || pending == AwaitTurn ==> currentHero.Some?)
    }

    ghost predicate Idle()
      reads this
    {
      pending == Nothing
    }

    /** The props the action bar is rendered with (`disabled` is built at App.tsx:227). */
    function InputProps(): InputArea.Props
      reads this
    {
      InputArea.Props(loading || status != ACTIVE, status == HERO_DEAD, systemEnergy)
    }

    /** The start form is rendered only in `MENU`. */
    predicate MenuShown()
      reads this
    {
      status == MENU
    }

    /** The location preview, whose button starts the game, is rendered only here. */
    predicate PreviewShown()
      reads this
    {
      status == LOCATION_PREVIEW && currentHero.Some?
    }

    /** The guard at the top of `processTurn`. */
    predicate CanTakeTurn()
      reads this
    {
      currentHero.Some? && status == ACTIVE && apiConfig.Some?
    }

    /** The initial state: the menu, no log, no hero, energy 50. */
    constructor ()
      ensures Valid() && Idle()
      ensures status == MENU && messages == [] && currentHero == None && systemEnergy == INITIAL_ENERGY
      ensures !loading && lastHeroStatus == "" && apiConfig == None
    {
      apiConfig := None;
      status := MENU;
      messages := [];
      currentHero := None;
      systemEnergy := INITIAL_ENERGY;
      loading := false;
      lastHeroStatus := "";
      nextId := 0;
      pending := Nothing;
    }

    /** `addMessage`: appends one entry with a fresh id; nothing else changes. */
    method AddMessage(sender: Sender, content: string, now: int)
      requires IdsFresh(messages, nextId)
      modifies this
      ensures messages == old(messages) + [Message(Uuid(old(nextId)), sender, content, now)]
      ensures nextId == old(nextId) + 1 && IdsFresh(messages, nextId)
      ensures apiConfig == old(apiConfig) && status == old(status) && currentHero == old(currentHero)
      ensures systemEnergy == old(systemEnergy) && loading == old(loading)
      ensures lastHeroStatus == old(lastHeroStatus) && pending == old(pending)
    {
      messages := messages + [Message(Uuid(nextId), sender, content, now)];
      nextId := nextId + 1;
    }

    /**
     * `initGame`, up to the `generateHero` call: searching, empty log, no
     * hero, energy back to 50, last status cleared. Returns the configuration
     * the hero is generated with.
     */
    method InitGame(config: ApiConfig) returns (heroCall: ApiConfig)
      requires Valid() && Idle() && apiConfig.Some?
      modifies this
      ensures Valid() && pending == AwaitHero && heroCall == config
      ensures status == SEARCHING && messages == [] && currentHero == None
      ensures systemEnergy == INITIAL_ENERGY && lastHeroStatus == ""
      ensures apiConfig == old(apiConfig) && loading == old(loading) && nextId == old(nextId)
    {
      status := SEARCHING;
      messages := [];
      currentHero := None;
      systemEnergy := INITIAL_ENERGY;
      lastHeroStatus := "";
      pending := AwaitHero;
      heroCall := config;
    }

    /** The rest of `initGame`: the hero on success, back to the menu on failure. */
    method HeroArrived(reply: Result<HeroProfile, Gemini.GenError>)
      requires Valid() && pending == AwaitHero
      modifies this
      ensures Valid() && Idle()
      ensures reply.Success? ==> status == LOCATION_PREVIEW && currentHero == Some(reply.value)
      ensures reply.Failure? ==> status == MENU && currentHero == old(currentHero)
      ensures messages == old(messages) && systemEnergy == old(systemEnergy) && nextId == old(nextId)
      ensures apiConfig == old(apiConfig) && loading == old(loading) && lastHeroStatus == old(lastHeroStatus)
    {
      match reply {
        case Success(hero) =>
          status := LOCATION_PREVIEW;
          currentHero := Some(hero);
        case Failure(_) =>
          status := MENU;
      }
      pending := Nothing;
    }

    /** `handleStartGame`: remember the configuration, then start a session with it. */
    method HandleStartGame(config: ApiConfig) returns (heroCall: ApiConfig)
      requires Valid() && Idle()
      modifies this
      ensures Valid() && pending == AwaitHero && heroCall == config
      ensures apiConfig == Some(config)
      ensures status == SEARCHING && messages == [] && currentHero == None
      ensures systemEnergy == INITIAL_ENERGY && lastHeroStatus == "" && loading == old(loading)
    {
      apiConfig := Some(config);
      heroCall := InitGame(config);
    }

    /** `handleRestart`: start over with the stored configuration, if there is one. */
    method HandleRestart() returns (heroCall: Option<ApiConfig>)
      requires Valid() && Idle()
      modifies this
      ensures Valid()
      ensures old(apiConfig).None? ==> unchanged(this) && heroCall == None
      ensures old(apiConfig).Some? ==> && heroCall == old(apiConfig) && pending == AwaitHero
                                       && status == SEARCHING && messages == [] && currentHero == None
                                       && systemEnergy == INITIAL_ENERGY && lastHeroStatus == ""
                                       && apiConfig == old(apiConfig)
    {
      heroCall := None;
      if apiConfig.Some? {
        var c := InitGame(apiConfig.value);
        heroCall := Some(c);
      }
    }

    /**
     * `startGame`, up to the seed call: with a hero and a configuration, the
     * game becomes active and busy, and the story is seeded from an empty
     * history with no directive.
     */
    method StartGame() returns (request: Option<StoryRequest>)
      requires Valid() && Idle()
      modifies this
      ensures Valid()
      ensures old(currentHero).None? || old(apiConfig).None? ==> unchanged(this) && request == None
      ensures old(currentHero).Some? && old(apiConfig).Some? ==>
                && request == Some(StoryRequest(old(currentHero).value, [], None, old(apiConfig).value))
                && status == ACTIVE && loading && pending == AwaitSeed
                && messages == old(messages) && systemEnergy == old(systemEnergy) && nextId == old(nextId)
                && currentHero == old(currentHero) && apiConfig == old(apiConfig)
                && lastHeroStatus == old(lastHeroStatus)
    {
      request := None;
      if currentHero.None? || apiConfig.None? {
        return;
      }
      status := ACTIVE;
      loading := true;
      pending := AwaitSeed;
      request := Some(StoryRequest(currentHero.value, [], None, apiConfig.value));
    }

    /**
     * The rest of `startGame`: exactly one entry is appended (the diary entry,
     * or an error line), the game stays active whatever `isDead` says, and the
     * busy flag is released on both paths.
     */
    method SeedArrived(reply: Result<AIResponse, Gemini.GenError>, now: int)
      requires Valid() && pending == AwaitSeed
      modifies this
      ensures Valid() && Idle() && !loading && status == ACTIVE
      ensures reply.Success? ==> && messages == old(messages) + [Message(Uuid(old(nextId)), HERO, reply.value.diaryEntry, now)]
                                 && lastHeroStatus == reply.value.statusDescription
      ensures reply.Failure? ==> && messages == old(messages) + [Message(Uuid(old(nextId)), SYSTEM, SEED_ERROR, now)]
                                 && lastHeroStatus == old(lastHeroStatus)
      ensures systemEnergy == old(systemEnergy) && currentHero == old(currentHero) && apiConfig == old(apiConfig)
    {
      match reply {
        case Success(r) =>
          AddMessage(HERO, r.diaryEntry, now);
          lastHeroStatus := r.statusDescription;
        case Failure(_) =>
          AddMessage(SYSTEM, SEED_ERROR, now);
      }
      loading := false;
      pending := Nothing;
    }

    /**
     * `processTurn`, up to the `continueStory` call. Outside an active game
     * with hero and configuration, or for a directive the player cannot pay
     * for, nothing changes and no call is made. Otherwise a directive is
     * logged and paid for, an observation restores energy, the session is
     * busy, and the call gets the log as it was plus the directive line.
     */
    method ProcessTurn(userText: Option<string>, now: int) returns (request: Option<StoryRequest>)
      requires Valid() && Idle()
      modifies this
      ensures Valid()
      ensures !old(CanTakeTurn()) ==> unchanged(this) && request == None
      ensures old(CanTakeTurn()) && IsDirective(userText) && !CanAfford(old(systemEnergy)) ==>
                unchanged(this) && request == None
      ensures old(CanTakeTurn()) ==> systemEnergy == Step(old(systemEnergy), ActionOf(userText))
      ensures old(CanTakeTurn()) && (!IsDirective(userText) || CanAfford(old(systemEnergy))) ==>
                && request == Some(StoryRequest(old(currentHero).value, old(messages) + DirectiveLine(userText, now),
                                                 userText, old(apiConfig).value))
                && messages == old(messages) + LoggedLine(userText, now, old(nextId))
                && loading && pending == AwaitTurn
                && status == old(status) && currentHero == old(currentHero) && apiConfig == old(apiConfig)
                && lastHeroStatus == old(lastHeroStatus)
    {
      request := None;
      if currentHero.None? || status != ACTIVE || apiConfig.None? {
        return;
      }
      var snapshot := messages;
      var newEnergy := systemEnergy;
      if IsDirective(userText) {
        if newEnergy < ENERGY_COST_MESSAGE {
          return;
        }
        AddMessage(SYSTEM, userText.value, now);
        newEnergy := newEnergy - ENERGY_COST_MESSAGE;
      } else {
        newEnergy := if MAX_ENERGY < newEnergy + ENERGY_GAIN_OBSERVE then MAX_ENERGY else newEnergy + ENERGY_GAIN_OBSERVE;
      }
      systemEnergy := newEnergy;
      loading := true;
      pending := AwaitTurn;
      var history := snapshot + DirectiveLine(userText, now);
      request := Some(StoryRequest(currentHero.value, history, userText, apiConfig.value));
    }

    /**
     * The rest of `processTurn`: on success exactly one hero entry and the new
     * status text, and death ends the game; on failure exactly one error line,
     * the game stays as it was and the energy already spent is not refunded.
     * The busy flag is released on both paths.
     */
    method TurnArrived(reply: Result<AIResponse, Gemini.GenError>, now: int)
      requires Valid() && pending == AwaitTurn
      modifies this
      ensures Valid() && Idle() && !loading
      ensures reply.Success? ==> && messages == old(messages) + [Message(Uuid(old(nextId)), HERO, reply.value.diaryEntry, now)]
                                 && lastHeroStatus == reply.value.statusDescription
                                 && status == (if reply.value.isDead then HERO_DEAD else ACTIVE)
      ensures reply.Failure? ==> && messages == old(messages) + [Message(Uuid(old(nextId)), SYSTEM, TURN_ERROR, now)]
                                 && lastHeroStatus == old(lastHeroStatus) && status == ACTIVE
      ensures systemEnergy == old(systemEnergy) && currentHero == old(currentHero) && apiConfig == old(apiConfig)
    {
      match reply {
        case Success(r) =>
          AddMessage(HERO, r.diaryEntry, now);
          lastHeroStatus := r.statusDescription;
          if r.isDead {
            status := HERO_DEAD;
          }
        case Failure(_) =>
          AddMessage(SYSTEM, TURN_ERROR, now);
      }
      loading := false;
      pending := Nothing;
    }
  }

  /**
   * The reentrancy lock: while a backend call is outstanding, every user
   * action is closed (no directive, no observation, no restart, no start
   * form, no location preview).
   */
  lemma NoActionWhileBusy(s: Session, text: string)
    requires s.Valid() && !s.Idle()
    ensures !InputArea.SubmitAllowed(s.InputProps(), text)
    ensures !InputArea.ObserveAllowed(s.InputProps())
    ensures !s.InputProps().isDead && !s.MenuShown() && !s.PreviewShown()
  {
  }

  /** A dead hero ends play: the bar offers only restart and no turn can be taken. */
  lemma DeadBlocksTurns(s: Session, text: string)
    requires s.Valid() && s.status == HERO_DEAD
    ensures InputArea.OfferedControls(s.InputProps().isDead) == {InputArea.RestartButton}
    ensures !InputArea.SubmitAllowed(s.InputProps(), text) && !InputArea.ObserveAllowed(s.InputProps())
    ensures !s.CanTakeTurn()
  {
  }

  /**
   * The gate the bar applies before a directive: it passes only when the
   * session could take the turn and could pay for it.
   */
  lemma SubmitImpliesTurnTaken(s: Session, text: string)
    requires s.Valid() && s.Idle()
    requires InputArea.SubmitAllowed(s.InputProps(), text)
    ensures s.CanTakeTurn() && CanAfford(s.systemEnergy) && text != ""
  {
  }

  /**
   * Log entries one turn adds at energy `e`: an affordable directive logs the
   * directive and the answer, a refused one nothing, an observation the answer.
   */
  function TurnEntries(e: int, a: Action): nat {
    match a
    case Directive => if CanAfford(e) then 2 else 0
    case Observe => 1
  }

  /** Log entries a sequence of turns adds, following the energy as `Run` does. */
  function Entries(e: int, acts: seq<Action>): nat
    decreases |acts|
  {
    if acts == [] then 0 else TurnEntries(e, acts[0]) + Entries(Step(e, acts[0]), acts[1..])
  }

  /** Entry counts compose like the energy: `a + b` adds what `a` adds, then what `b` adds from where `a` left energy. */
  lemma {:induction false} EntriesAppend(e: int, a: seq<Action>, b: seq<Action>)
    ensures Entries(e, a + b) == Entries(e, a) + Entries(Run(e, a), b)
    decreases |a|
  {
    if a != [] {
      assert (a + b)[1..] == a[1..] + b;
      EntriesAppend(Step(e, a[0]), a[1..], b);
    } else {
      assert a + b == b;
    }
  }

  /** The economy's view of a sequence of inputs to `processTurn`. */
  function Actions(inputs: seq<Option<string>>): seq<Action> {
    seq(|inputs|, k requires 0 <= k < |inputs| => ActionOf(inputs[k]))
  }

  /**
   * Turn `k` of a play from energy `e0` is answered with a death: its reply
   * reports one and the turn was taken (an observation, or an affordable
   * directive at the energy the earlier turns left).
   */
  predicate DiedAt(e0: int, inputs: seq<Option<string>>, replies: seq<Result<AIResponse, Gemini.GenError>>, k: nat)
    requires k < |inputs| && |replies| == |inputs|
  {
    && replies[k].Success? && replies[k].value.isDead
    && (IsDirective(inputs[k]) ==> CanAfford(Run(e0, Actions(inputs[..k]))))
  }

  /**
   * Plays `inputs` one by one through `handleSendMessage`/`handleNextTurn`,
   * each answered call receiving the reply at the same index. Energy is the
   * economy's `Run` over the turns taken; once the hero dies every later
   * input is refused, and if no answer reports death every input is a turn.
   */
  method PlayTurns(s: Session, inputs: seq<Option<string>>, replies: seq<Result<AIResponse, Gemini.GenError>>, now: int)
    returns (taken: nat)
    requires s.Valid() && s.Idle() && s.CanTakeTurn() && |replies| == |inputs|
    modifies s
    ensures s.Valid() && s.Idle() && taken <= |inputs|
    ensures s.systemEnergy == Run(old(s.systemEnergy), Actions(inputs[..taken]))
    ensures s.status == ACTIVE || s.status == HERO_DEAD
    ensures taken < |inputs| ==> s.status == HERO_DEAD
    ensures s.status == HERO_DEAD <==> taken > 0 && DiedAt(old(s.systemEnergy), inputs, replies, taken - 1)
    ensures forall k :: 0 <= k < taken - 1 ==> !DiedAt(old(s.systemEnergy), inputs, replies, k)
    ensures (forall k :: 0 <= k < |replies| && replies[k].Success? ==> !replies[k].value.isDead)
            ==> taken == |inputs| && s.CanTakeTurn()
    ensures old(s.messages) <= s.messages
    ensures |s.messages| == |old(s.messages)| + Entries(old(s.systemEnergy), Actions(inputs[..taken]))
  {
    ghost var e0 := s.systemEnergy;
    ghost var m0 := s.messages;
    taken := 0;
    var k := 0;
    while k < |inputs|
      invariant 0 <= taken <= k <= |inputs|
      invariant s.Valid() && s.Idle() && s.currentHero.Some? && s.apiConfig.Some?
      invariant s.status == ACTIVE || s.status == HERO_DEAD
      invariant s.status == ACTIVE ==> taken == k
      invariant (forall j :: 0 <= j < k && replies[j].Success? ==> !replies[j].value.isDead) ==> s.status == ACTIVE
      invariant s.systemEnergy == Run(e0, Actions(inputs[..taken]))
      invariant s.status == HERO_DEAD <==> taken > 0 && DiedAt(e0, inputs, replies, taken - 1)
      invariant forall j :: 0 <= j < taken - 1 ==> !DiedAt(e0, inputs, replies, j)
      invariant m0 <= s.messages && |s.messages| == |m0| + Entries(e0, Actions(inputs[..taken]))
    {
      if s.status == ACTIVE {
        TakeTurn(s, inputs[k], replies[k], now);
        assert Actions(inputs[..k + 1]) == Actions(inputs[..k]) + [ActionOf(inputs[k])];
        RunAppend(e0, Actions(inputs[..k]), [ActionOf(inputs[k])]);
        EntriesAppend(e0, Actions(inputs[..k]), [ActionOf(inputs[k])]);
        taken := taken + 1;
      } else {
        var request := s.ProcessTurn(inputs[k], now);
      }
      k := k + 1;
    }
  }

  /**
   * One turn of an active game: `processTurn` on `input`, and the answer
   * `reply` when the call went out. The hero dies exactly when the turn was
   * taken and the answer says so.
   */
  method TakeTurn(s: Session, input: Option<string>, reply: Result<AIResponse, Gemini.GenError>, now: int)
    requires s.Valid() && s.Idle() && s.CanTakeTurn()
    modifies s
    ensures s.Valid() && s.Idle() && s.currentHero.Some? && s.apiConfig.Some?
    ensures s.systemEnergy == Step(old(s.systemEnergy), ActionOf(input))
    ensures s.status == HERO_DEAD <==> && reply.Success? && reply.value.isDead
                                       && (IsDirective(input) ==> CanAfford(old(s.systemEnergy)))
    ensures s.status == ACTIVE || s.status == HERO_DEAD
    ensures old(s.messages) <= s.messages
    ensures |s.messages| == |old(s.messages)| + TurnEntries(old(s.systemEnergy), ActionOf(input))
  {
    var request := s.ProcessTurn(input, now);
    if request.Some? {
      s.TurnArrived(reply, now);
    }
  }

  /** A session started with `config`, shown `hero` and seeded with `seed`: active, idle, energy 50. */
  method OpenedSession(config: ApiConfig, hero: HeroProfile, seed: AIResponse) returns (s: Session)
    ensures fresh(s) && s.Valid() && s.Idle() && s.CanTakeTurn() && s.systemEnergy == 50
    ensures |s.messages| == 1 && s.messages[0].sender == HERO && s.messages[0].content == seed.diaryEntry
  {
    s := new Session();
    var heroCall := s.HandleStartGame(config);
    s.HeroArrived(Success(hero));
    var seedCall := s.StartGame();
    s.SeedArrived(Success(seed), 0);
  }

  /**
   * A played session: start, seed, a directive at energy 50, a second
   * directive refused at energy 15, then an observation.
   */
  method DirectiveThenObserve(config: ApiConfig, hero: HeroProfile, seed: AIResponse, answer: AIResponse, later: AIResponse)
    returns (afterDirective: int, afterRefused: int, afterObserve: int, log: seq<Message>, status: string)
    requires !answer.isDead
    ensures afterDirective == 15 && afterRefused == 15 && afterObserve == 30
    ensures |log| == 4 && log[1].sender == SYSTEM && log[1].content == "Open your eyes"
    ensures log[0].sender == HERO && log[2].sender == HERO && log[3].sender == HERO
    ensures log[2].content == answer.diaryEntry && log[3].content == later.diaryEntry
    ensures status == later.statusDescription
  {
    var s := OpenedSession(config, hero, seed);
    var seeded := s.messages;
    var call := s.ProcessTurn(Some("Open your eyes"), 1);
    afterDirective := s.systemEnergy;
    s.TurnArrived(Success(answer), 2);
    var answered := s.messages;
    assert s.CanTakeTurn() && s.Idle() && s.systemEnergy == 15;
    assert answered == seeded + [answered[1], answered[2]];
    var refused := s.ProcessTurn(Some("Again"), 3);
    afterRefused := s.systemEnergy;
    var observe := s.ProcessTurn(None, 4);
    assert s.messages == answered && s.systemEnergy == 30;
    s.TurnArrived(Success(later), 5);
    afterObserve := s.systemEnergy;
    log := s.messages;
    status := s.lastHeroStatus;
  }
}

=== FILE: shapes.dfy ===
/**
 * The response shapes the service asks the backend for. Each request carries a
 * schema hint (property types plus a required-field list); the service itself
 * never checks a reply against it and simply casts the parsed JSON. This module
 * states, as an abstraction, what a reply conforming to the hint is and how it
 * decodes into the typed values.
 */
module Shapes {
  import opened Wrappers
  import opened Types

  datatype FieldType = StringField | BooleanField | EnumField(values: seq<string>)

  /** A response-schema hint: typed properties and the names that must be present. */
  datatype Schema = Schema(properties: seq<(string, FieldType)>, required: seq<string>)

  /** The hero-creation hint. */
  function HeroSchema(): Schema {
    Schema(
      [("name", StringField), ("archetype", StringField), ("personality", StringField),
       ("origin", StringField), ("theme", EnumField(ThemeTags)), ("locationDescription", StringField)],
      ["name", "archetype", "personality", "origin", "theme", "locationDescription"])
  }

  /** The per-turn hint. */
  function TurnSchema(): Schema {
    Schema(
      [("diaryEntry", StringField), ("isDead", BooleanField), ("statusDescription", StringField)],
      ["diaryEntry", "isDead", "statusDescription"])
  }

  /** The model-supplied part of a hero profile (everything but the coordinates). */
  datatype HeroData = HeroData(
    name: string,
    archetype: string,
    personality: string,
    origin: string,
    theme: ThemeType,
    locationDescription: string)

  /** The JSON values a field can hold, as far as the shapes care. */
  datatype JsonValue = JString(str: string) | JBool(b: bool) | JNumber(n: int) | JNull

  type JsonObject = map<string, JsonValue>

  /** The declared type of a property, if the hint declares it. */
  function PropertyType(props: seq<(string, FieldType)>, name: string): Option<FieldType> {
    if props == [] then None
    else if props[0].0 == name then Some(props[0].1)
    else PropertyType(props[1..], name)
  }

  predicate FieldMatches(v: JsonValue, t: FieldType) {
    match t
    case StringField => v.JString?
    case BooleanField => v.JBool?
    case EnumField(values) => v.JString? && v.str in values
  }

  /** Field `f` is present, declared, and holds a value of its declared type. */
  predicate FieldOk(obj: JsonObject, props: seq<(string, FieldType)>, f: string) {
    && f in obj
    && PropertyType(props, f).Some?
    && FieldMatches(obj[f], PropertyType(props, f).value)
  }

  /** Every required field is present, declared, and holds a value of its declared type. */
  predicate Conforms(obj: JsonObject, schema: Schema) {
    forall f :: f in schema.required ==> FieldOk(obj, schema.properties, f)
  }

  lemma TurnPropertyTypes()
    ensures PropertyType(TurnSchema().properties, "diaryEntry") == Some(StringField)
    ensures PropertyType(TurnSchema().properties, "isDead") == Some(BooleanField)
    ensures PropertyType(TurnSchema().properties, "statusDescription") == Some(StringField)
  {
  }

  predicate TurnFieldsPresent(obj: JsonObject) {
    && "diaryEntry" in obj && obj["diaryEntry"].JString?
    && "isDead" in obj && obj["isDead"].JBool?
    && "statusDescription" in obj && obj["statusDescription"].JString?
  }

  lemma ConformsTurn(obj: JsonObject)
    ensures Conforms(obj, TurnSchema()) <==> TurnFieldsPresent(obj)
  {
    TurnPropertyTypes();
    var req := TurnSchema().required;
    var p := TurnSchema().properties;
    if TurnFieldsPresent(obj) {
      forall f | f in req ensures FieldOk(obj, p, f) {
        var i :| 0 <= i < |req| && req[i] == f;
        if i == 0 { assert f == "diaryEntry"; }
        else if i == 1 { assert f == "isDead"; }
        else { assert f == "statusDescription"; }
      }
    }
    if Conforms(obj, TurnSchema()) {
      assert req[0] == "diaryEntry" && req[1] == "isDead" && req[2] == "statusDescription";
      assert FieldOk(obj, p, "diaryEntry") && FieldOk(obj, p, "isDead") && FieldOk(obj, p, "statusDescription");
    }
  }

  /** Reads a turn answer; it succeeds exactly on the objects that conform to the turn hint. */
  function DecodeTurn(obj: JsonObject): (r: Option<AIResponse>)
    ensures r.Some? <==> Conforms(obj, TurnSchema())
    ensures r.Some? ==> && "diaryEntry" in obj && obj["diaryEntry"] == JString(r.value.diaryEntry)
                        && "isDead" in obj && obj["isDead"] == JBool(r.value.isDead)
                        && "statusDescription" in obj
                        && obj["statusDescription"] == JString(r.value.statusDescription)
  {
    ConformsTurn(obj);
    if TurnFieldsPresent(obj)
    then Some(AIResponse(obj["diaryEntry"].str, obj["isDead"].b, obj["statusDescription"].str))
    else None
  }

  function EncodeTurn(r: AIResponse): JsonObject {
    map["diaryEntry" := JString(r.diaryEntry), "isDead" := JBool(r.isDead),
        "statusDescription" := JString(r.statusDescription)]
  }

  /** A turn answer written out as JSON conforms to the hint and reads back unchanged. */
  lemma TurnRoundTrip(r: AIResponse)
    ensures Conforms(EncodeTurn(r), TurnSchema())
    ensures DecodeTurn(EncodeTurn(r)) == Some(r)
  {
    assert TurnFieldsPresent(EncodeTurn(r));
    ConformsTurn(EncodeTurn(r));
  }

  /** Missing `diaryEntry`, or an `isDead` that is not a boolean, is rejected. */
  lemma TurnRejects(obj: JsonObject)
    requires "diaryEntry" !in obj || ("isDead" in obj && !obj["isDead"].JBool?)
    ensures DecodeTurn(obj) == None
  {
    ConformsTurn(obj);
  }

  /** The declared types of the hero hint's properties, looked up by name. */
  lemma HeroPropertyTypes()
    ensures PropertyType(HeroSchema().properties, "name") == Some(StringField)
    ensures PropertyType(HeroSchema().properties, "archetype") == Some(StringField)
    ensures PropertyType(HeroSchema().properties, "personality") == Some(StringField)
    ensures PropertyType(HeroSchema().properties, "origin") == Some(StringField)
    ensures PropertyType(HeroSchema().properties, "theme") == Some(EnumField(ThemeTags))
    ensures PropertyType(HeroSchema().properties, "locationDescription") == Some(StringField)
  {
    var p := HeroSchema().properties;
    assert p[1..][1..][1..][1..][1..] == [("locationDescription", StringField)];
  }

  predicate HeroFieldsPresent(obj: JsonObject) {
    && "name" in obj && obj["name"].JString?
    && "archetype" in obj && obj["archetype"].JString?
    && "personality" in obj && obj["personality"].JString?
    && "origin" in obj && obj["origin"].JString?
    && "theme" in obj && obj["theme"].JString? && obj["theme"].str in ThemeTags
    && "locationDescription" in obj && obj["locationDescription"].JString?
  }

  lemma ConformsHero(obj: JsonObject)
    ensures Conforms(obj, HeroSchema()) <==> HeroFieldsPresent(obj)
  {
    if HeroFieldsPresent(obj) {
      PresentConformsHero(obj);
    }
    if Conforms(obj, HeroSchema()) {
      var req := HeroSchema().required;
      var p := HeroSchema().properties;
      assert req[0] == "name" && req[1] == "archetype" && req[2] == "personality";
      assert req[3] == "origin" && req[4] == "theme" && req[5] == "locationDescription";
      HeroPropertyTypes();
      assert FieldOk(obj, p, "name") && FieldOk(obj, p, "archetype") && FieldOk(obj, p, "personality");
      assert FieldOk(obj, p, "origin") && FieldOk(obj, p, "theme") && FieldOk(obj, p, "locationDescription");
    }
  }

  lemma PresentConformsHero(obj: JsonObject)
    requires HeroFieldsPresent(obj)
    ensures Conforms(obj, HeroSchema())
  {
    HeroPropertyTypes();
    var p := HeroSchema().properties;
    forall f | f in HeroSchema().required
      ensures FieldOk(obj, p, f)
    {
      var req := HeroSchema().required;
      var i :| 0 <= i < |req| && req[i] == f;
      if i == 0 { assert f == "name"; }
      else if i == 1 { assert f == "archetype"; }
      else if i == 2 { assert f == "personality"; }
      else if i == 3 { assert f == "origin"; }
      else if i == 4 { assert f == "theme"; }
      else { assert f == "locationDescription"; }
    }
  }

  /** Reads the model-supplied hero fields; it succeeds exactly on objects conforming to the hero hint. */
  function DecodeHero(obj: JsonObject): (r: Option<HeroData>)
    ensures r.Some? <==> Conforms(obj, HeroSchema())
    ensures r.Some? ==> && "name" in obj && obj["name"] == JString(r.value.name)
                        && "archetype" in obj && obj["archetype"] == JString(r.value.archetype)
                        && "personality" in obj && obj["personality"] == JString(r.value.personality)
                        && "origin" in obj && obj["origin"] == JString(r.value.origin)
                        && "theme" in obj && obj["theme"] == JString(ThemeTag(r.value.theme))
                        && "locationDescription" in obj
                        && obj["locationDescription"] == JString(r.value.locationDescription)
  {
    ConformsHero(obj);
    if HeroFieldsPresent(obj)
    then Some(HeroData(obj["name"].str, obj["archetype"].str, obj["personality"].str,
                       obj["origin"].str, ThemeFromTag(obj["theme"].str).value,
                       obj["locationDescription"].str))
    else None
  }

  function EncodeHero(h: HeroData): JsonObject {
    map["name" := JString(h.name), "archetype" := JString(h.archetype),
        "personality" := JString(h.personality), "origin" := JString(h.origin),
        "theme" := JString(ThemeTag(h.theme)), "locationDescription" := JString(h.locationDescription)]
  }

  /** Hero fields written out as JSON conform to the hint and read back unchanged. */
  lemma HeroRoundTrip(h: HeroData)
    ensures Conforms(EncodeHero(h), HeroSchema())
    ensures DecodeHero(EncodeHero(h)) == Some(h)
  {
    ThemeTagsExact(h.theme);
    var obj := EncodeHero(h);
    assert HeroFieldsPresent(obj);
    ConformsHero(obj);
  }
}

=== FILE: text.dfy ===
/**
 * The JavaScript string operations the core relies on: `String.prototype.trim`,
 * `Array.prototype.join` and the decimal rendering of a non-negative integer
 * inside a template literal.
 */
module Text {

  /** The characters `trim` removes: ECMAScript WhiteSpace and LineTerminator. */
  predicate IsJsWhitespace(c: char) {
    || c == '\t' || c == '\n' || c == '\U{000B}' || c == '\U{000C}' || c == '\r'
    || c == ' ' || c == '\U{00A0}' || c == '\U{1680}'
    || ('\U{2000}' <= c <= '\U{200A}')
    || c == '\U{2028}' || c == '\U{2029}' || c == '\U{202F}' || c == '\U{205F}'
    || c == '\U{3000}' || c == '\U{FEFF}'
  }

  predicate AllWhitespace(s: string) {
    forall i :: 0 <= i < |s| ==> IsJsWhitespace(s[i])
  }

  /** Drops leading whitespace: the result is a suffix starting at the first non-blank. */
  function TrimStart(s: string): (r: string)
    ensures |r| <= |s| && r == s[|s| - |r|..]
    ensures AllWhitespace(s[..|s| - |r|])
    ensures r == [] || !IsJsWhitespace(r[0])
  {
    if s != [] && IsJsWhitespace(s[0]) then TrimStart(s[1..]) else s
  }

  /** Drops trailing whitespace: the result is a prefix ending at the last non-blank. */
  function TrimEnd(s: string): (r: string)
    ensures |r| <= |s| && r == s[..|r|]
    ensures AllWhitespace(s[|r|..])
    ensures r == [] || !IsJsWhitespace(r[|r| - 1])
  {
    if s != [] && IsJsWhitespace(s[|s| - 1]) then TrimEnd(s[..|s| - 1]) else s
  }

  function Trim(s: string): string {
    TrimEnd(TrimStart(s))
  }

  /**
   * `trim` returns a contiguous slice of its input with only whitespace cut
   * away on either side, and no whitespace left at either end.
   */
  lemma TrimIsSlice(s: string) returns (i: nat, j: nat)
    ensures i <= j <= |s| && Trim(s) == s[i..j]
    ensures AllWhitespace(s[..i]) && AllWhitespace(s[j..])
    ensures Trim(s) == [] || (!IsJsWhitespace(Trim(s)[0]) && !IsJsWhitespace(Trim(s)[|Trim(s)| - 1]))
  {
    var t := TrimStart(s);
    var e := TrimEnd(t);
    i, j := TrimmedSlice(s, t, e);
  }

  /**
   * A suffix `t` of `s` after a blank prefix and not starting blank, and a
   * prefix `e` of `t` before a blank suffix and not ending blank, make `e` a
   * slice of `s` with blanks only outside and no blank at its ends.
   */
  lemma TrimmedSlice(s: string, t: string, e: string) returns (i: nat, j: nat)
    requires |t| <= |s| && t == s[|s| - |t|..] && AllWhitespace(s[..|s| - |t|])
    requires t == [] || !IsJsWhitespace(t[0])
    requires |e| <= |t| && e == t[..|e|] && AllWhitespace(t[|e|..])
    requires e == [] || !IsJsWhitespace(e[|e| - 1])
    ensures i == |s| - |t| && j == i + |e| && j <= |s| && e == s[i..j]
    ensures AllWhitespace(s[..i]) && AllWhitespace(s[j..])
    ensures e == [] || (!IsJsWhitespace(e[0]) && !IsJsWhitespace(e[|e| - 1]))
  {
    i, j := |s| - |t|, |s| - |t| + |e|;
    PrefixOfSuffix(s, i, e);
    if e != [] {
      assert e[0] == t[0];
    }
  }

  /** A prefix `e` of the suffix `s[i..]` is the slice `s[i..i + |e|]`, followed by `s[i + |e|..]`. */
  lemma PrefixOfSuffix(s: string, i: nat, e: string)
    requires i <= |s| && |e| <= |s| - i && e == s[i..][..|e|]
    ensures e == s[i..i + |e|] && s[i..][|e|..] == s[i + |e|..]
  {
  }

  /** `trim` yields a slice of its input. */
  lemma TrimSliceOf(s: string)
    ensures exists i, j :: 0 <= i <= j <= |s| && Trim(s) == s[i..j] && AllWhitespace(s[..i]) && AllWhitespace(s[j..])
  {
    var i, j := TrimIsSlice(s);
  }

  /** A string trims to empty exactly when every character of it is whitespace. */
  lemma TrimEmptyIffBlank(s: string)
    ensures Trim(s) == [] <==> AllWhitespace(s)
  {
    var t := TrimStart(s);
    var k := |s| - |t|;
    if Trim(s) == [] {
      assert t[0..] == t;
      assert t == [];
      forall i | 0 <= i < |s| ensures IsJsWhitespace(s[i]) {
        assert s[i] == s[..k][i];
      }
    } else {
      assert !IsJsWhitespace(t[0]);
      assert t[0] == s[k];
    }
  }

  /** Trimming twice changes nothing more. */
  lemma {:induction false} TrimIdempotent(s: string)
    ensures Trim(Trim(s)) == Trim(s)
  {
    var r := Trim(s);
    var _, _ := TrimIsSlice(s);
    assert TrimStart(r) == r;
    assert TrimEnd(r) == r;
  }

  /** `lines.join(sep)`. */
  function Join(lines: seq<string>, sep: string): string {
    if |lines| == 0 then ""
    else if |lines| == 1 then lines[0]
    else lines[0] + sep + Join(lines[1..], sep)
  }

  /** Joining distributes over concatenation of two non-empty line lists. */
  lemma {:induction false} JoinAppend(a: seq<string>, b: seq<string>, sep: string)
    requires |a| > 0 && |b| > 0
    ensures Join(a + b, sep) == Join(a, sep) + sep + Join(b, sep)
  {
    if |a| == 1 {
      assert (a + b)[1..] == b;
    } else {
      assert (a + b)[1..] == a[1..] + b;
      JoinAppend(a[1..], b, sep);
    }
  }

  /** The joined text has every line's characters plus one separator between each pair. */
  lemma {:induction false} JoinLength(lines: seq<string>, sep: string)
    ensures |Join(lines, sep)| == SumLengths(lines) + (if |lines| == 0 then 0 else (|lines| - 1) * |sep|)
  {
    if |lines| > 1 {
      JoinLength(lines[1..], sep);
    }
  }

  function SumLengths(lines: seq<string>): nat {
    if lines == [] then 0 else |lines[0]| + SumLengths(lines[1..])
  }

  /** `part` occurs in `s` starting at position `k`. */
  predicate OccursAt(s: string, part: string, k: int) {
    0 <= k && k + |part| <= |s| && s[k..k + |part|] == part
  }

  /** `part` occurs in `s` at some position. */
  ghost predicate Contains(s: string, part: string) {
    exists k :: OccursAt(s, part, k)
  }

  /** Putting text in front keeps every occurrence. */
  lemma ContainsPrepend(t: string, s: string, part: string)
    requires Contains(s, part)
    ensures Contains(t + s, part)
  {
    var k :| OccursAt(s, part, k);
    assert (t + s)[|t| + k..|t| + k + |part|] == s[k..k + |part|];
    assert OccursAt(t + s, part, |t| + k);
  }

  /** The pieces of a template literal glued together in order. */
  function Concat(parts: seq<string>): string {
    if parts == [] then "" else parts[0] + Concat(parts[1..])
  }

  /** Every piece of a template occurs in the text it produces. */
  lemma {:induction false} ConcatContains(parts: seq<string>, i: nat)
    requires i < |parts|
    ensures Contains(Concat(parts), parts[i])
  {
    if i == 0 {
      assert Concat(parts)[0..|parts[0]|] == parts[0];
      assert OccursAt(Concat(parts), parts[0], 0);
    } else {
      ConcatContains(parts[1..], i - 1);
      ContainsPrepend(parts[0], Concat(parts[1..]), parts[i]);
    }
  }

  /** A string occurs in any concatenation around it. */
  lemma ContainsMiddle(a: string, part: string, b: string)
    ensures Contains(a + part + b, part)
  {
    var s := a + part + b;
    assert s[|a|..|a| + |part|] == part;
    assert OccursAt(s, part, |a|);
  }

  predicate IsDigit(c: char) { '0' <= c <= '9' }

  function DigitChar(d: nat): (c: char)
    requires d < 10
    ensures IsDigit(c)
  {
    ['0', '1', '2', '3', '4', '5', '6', '7', '8', '9'][d]
  }

  function DigitValue(c: char): (d: nat)
    requires IsDigit(c)
    ensures d < 10 && DigitChar(d) == c
  {
    (c as int - '0' as int) as nat
  }

  /** The decimal rendering of a non-negative integer (no sign, no leading zeros). */
  function NatToString(n: nat): (r: string)
    ensures |r| > 0
    ensures forall i :: 0 <= i < |r| ==> IsDigit(r[i])
    ensures |r| > 1 ==> r[0] != '0'
  {
    if n < 10 then [DigitChar(n)] else NatToString(n / 10) + [DigitChar(n % 10)]
  }

  /** Reads a string of decimal digits back as a number. */
  function ParseDigits(s: string): nat
    requires forall i :: 0 <= i < |s| ==> IsDigit(s[i])
  {
    if s == [] then 0 else ParseDigits(s[..|s| - 1]) * 10 + DigitValue(s[|s| - 1])
  }

  lemma {:induction false} NatToStringRoundTrip(n: nat)
    ensures ParseDigits(NatToString(n)) == n
  {
    var r := NatToString(n);
    if n >= 10 {
      assert r[..|r| - 1] == NatToString(n / 10);
      NatToStringRoundTrip(n / 10);
    }
  }

  /** The longest prefix of `s` made of digits. */
  function LeadingDigits(s: string): (r: string)
    ensures |r| <= |s| && r == s[..|r|]
    ensures forall i :: 0 <= i < |r| ==> IsDigit(r[i])
    ensures |r| < |s| ==> !IsDigit(s[|r|])
  {
    if s != [] && IsDigit(s[0]) then [s[0]] + LeadingDigits(s[1..]) else []
  }

  /** A run of digits followed by a non-digit is read back exactly. */
  lemma {:induction false} LeadingDigitsOf(ds: string, rest: string)
    requires forall i :: 0 <= i < |ds| ==> IsDigit(ds[i])
    requires rest == [] || !IsDigit(rest[0])
    ensures LeadingDigits(ds + rest) == ds
  {
    if ds != [] {
      assert (ds + rest)[1..] == ds[1..] + rest;
      LeadingDigitsOf(ds[1..], rest);
    } else {
      assert ds + rest == rest;
    }
  }
}

=== FILE: types.dfy ===
/**
 * The data model of the turn engine (types.ts), plus the `MENU` status that
 * App.tsx uses although the declared status union omits it.
 */
module Types {
  import opened Wrappers

  /** Who wrote a log line: the observing "voice" or the hero. */
  datatype Sender = SYSTEM | HERO

  /** The enum's string values. */
  function SenderTag(s: Sender): string {
    match s
    case SYSTEM => "SYSTEM"
    case HERO => "HERO"
  }

  function SenderFromTag(t: string): (r: Option<Sender>)
    ensures r.Some? <==> t == "SYSTEM" || t == "HERO"
    ensures r.Some? ==> SenderTag(r.value) == t
  {
    if t == "SYSTEM" then Some(SYSTEM)
    else if t == "HERO" then Some(HERO)
    else None
  }

  /** Every sender has a distinct tag and the tag decodes back to it. */
  lemma SenderTagRoundTrip(s: Sender)
    ensures SenderFromTag(SenderTag(s)) == Some(s)
    ensures forall s' :: SenderTag(s') == SenderTag(s) ==> s' == s
  {
    match s
    case SYSTEM =>
    case HERO =>
  }

  /** The six biome tags. */
  datatype ThemeType = Dungeon | Forest | Desert | Winter | Swamp | City

  const ThemeTags: seq<string> := ["dungeon", "forest", "desert", "winter", "swamp", "city"]

  function ThemeTag(t: ThemeType): (r: string)
    ensures r in ThemeTags
  {
    match t
    case Dungeon => "dungeon"
    case Forest => "forest"
    case Desert => "desert"
    case Winter => "winter"
    case Swamp => "swamp"
    case City => "city"
  }

  function ThemeFromTag(s: string): (r: Option<ThemeType>)
    ensures r.Some? <==> s in ThemeTags
    ensures r.Some? ==> ThemeTag(r.value) == s
  {
    if s == "dungeon" then Some(Dungeon)
    else if s == "forest" then Some(Forest)
    else if s == "desert" then Some(Desert)
    else if s == "winter" then Some(Winter)
    else if s == "swamp" then Some(Swamp)
    else if s == "city" then Some(City)
    else None
  }

  /** Exactly six tags, pairwise distinct, each decoding to its own theme. */
  lemma ThemeTagsExact(t: ThemeType)
    ensures |ThemeTags| == 6
    ensures forall i, j :: 0 <= i < j < |ThemeTags| ==> ThemeTags[i] != ThemeTags[j]
    ensures ThemeFromTag(ThemeTag(t)) == Some(t)
  {
    match t
    case Dungeon =>
    case Forest =>
    case Desert =>
    case Winter =>
    case Swamp =>
    case City =>
  }

  /** A generated character; `startCoordinates` is made on the client, not by the model. */
  datatype HeroProfile = HeroProfile(
    name: string,
    archetype: string,
    personality: string,
    origin: string,
    theme: ThemeType,
    locationDescription: string,
    startCoordinates: string)

  /**
   * Message ids: `Uuid(n)` stands for a fresh `crypto.randomUUID()` (a counter
   * here), `Temp` for the literal id 'temp' of the history-only directive line.
   */
  datatype MessageId = Uuid(n: nat) | Temp

  datatype Message = Message(id: MessageId, sender: Sender, content: string, timestamp: int)

  /** Lifecycle states; `MENU` is used by App.tsx though missing from types.ts. */
  datatype Status = MENU | INITIALIZING | SEARCHING | LOCATION_PREVIEW | ACTIVE | HERO_DEAD

  /** One turn's answer from the backend. */
  datatype AIResponse = AIResponse(diaryEntry: string, isDead: bool, statusDescription: string)

  /** Credentials and transport mode; types.ts declares no such type, so its shape is the one built at components/MainMenu.tsx:33-37. */
  datatype ApiConfig = ApiConfig(apiKey: string, useProxy: bool)
}

=== FILE: wrappers.dfy ===
/** Option and Result, the failure-carrying values the rest of the model returns. */
module Wrappers {

  datatype Option<+T> = None | Some(value: T) {
    function GetOr(default: T): T {
      match this
      case Some(v) => v
      case None => default
    }
  }

  datatype Result<+R, +E> = Success(value: R) | Failure(error: E)
}
